=== FILE: README.md ===
# atlasdb-slow-queries: a verified model of the Performance Advisor poller

The program polls the MongoDB Atlas Performance Advisor for one project. It finds the
project's primary process, fetches the slow-query log entries and the suggested indexes
recorded since a time window, and writes one structured log record per finding. This
project models the logic of `internal/apiRequest.go` in Dafny and proves properties of it:

- **primary resolution** (`getPrimary`): the first process, in listing order, whose
  lower-cased type label contains `primary`;
- **slow-query projection** (`getSlowQueries`): one record per entry, with the database and
  collection read from the namespace split on `.`;
- **suggested-index join** (`getSuggestedIndexes`): per suggestion, the index string built
  by concatenating the element encodings, and one record per impact/shape pair with equal ids;
- **orchestration** (`GetData`): the since-timestamp, the request URLs, and the rule that a
  failed primary resolution ends the run before either fetch.

The network, the JSON decoder, the logger and the clock are replaced by values. Each API
call's answer is an input `Reply`: a transport error, a decoded value, or a decoding error
together with whatever had been decoded. A run yields a `Trace`. It holds the URLs
requested in order, the log records written in order, and how the run ended: normally,
through `log.Fatal`, or through the index-out-of-range panic of `namespace[1]`.

Modules: `GoInts` (64-bit wrap-around, truncating division), `GoStrings` (`strings.ToLower`,
`strings.Contains`, `strings.Split`, decimal formatting), `AtlasTypes` (decoded records,
replies, log records, traces), `Namespaces`, `Primary`, `SlowQueries`, `SuggestedIndexes`,
`Orchestration`. Each fetch loop is a method proved equal to a specification function, and
the lemmas state the properties of those functions.

Two behaviours of the code are modelled as written:

- In `getSuggestedIndexes` the code reads `namespace[1]` only while writing a matched record.
  A suggestion whose namespace has no `.` therefore panics only if one of its impacts matches
  a shape; with no match it writes nothing and the loop goes on.
- The since-timestamp wraps the Duration product `-since * time.Hour` to 64 bits, wraps the
  sum with the clock reading, and divides by 10^6 with truncation toward zero.

## Model

| member | source | states |
|---|---|---|
| GoInts.Quo | internal/apiRequest.go:68 | Go's `/` on int64: the quotient truncated toward zero, bounded as a quotient of `a` by `b` on each sign of `a` |
| GoInts.Wrap64 | internal/apiRequest.go:68 | the 64-bit two's-complement value congruent to the exact result modulo 2^64, and the identity on values that fit |
| GoStrings.LowerRune | internal/apiRequest.go:97 | a rune lowers to an ASCII small letter only from that letter, its capital, U+0130 or U+212A; capitals move by 32, U+0130 lowers to `i` and U+212A to `k`, and every other ASCII rune, the small letters included, lowers to itself |
| GoStrings.ToLower | internal/apiRequest.go:97 | `strings.ToLower` keeps the length and lowers each rune by LowerRune |
| GoStrings.Contains | internal/apiRequest.go:97 | `strings.Contains`, searched from the left; characterised by ContainsIffOccurs |
| GoStrings.ContainsIffOccurs | internal/apiRequest.go:97 | `strings.Contains` holds exactly when the substring occurs at some position |
| GoStrings.Split | internal/apiRequest.go:121 | `strings.Split` on `.` gives at least one piece, and two or more exactly when the string contains `.` |
| GoStrings.SplitJoin | internal/apiRequest.go:121 | joining the pieces with the separator gives back the original string |
| GoStrings.SplitPiecesHaveNoSeparator | internal/apiRequest.go:121 | no piece contains the separator |
| GoStrings.SplitCount | internal/apiRequest.go:121 | there is one more piece than there are separators |
| GoStrings.FormatInt | internal/apiRequest.go:107 | the `%v` rendering of an integer is a canonical numeral (no leading zero, no `-0`) that starts with `-` exactly for negatives; FormatIntRoundTrip reads it back |
| GoStrings.FormatIntRoundTrip | internal/apiRequest.go:107 | the `%v` rendering of an integer reads back as the same integer |
| GoStrings.CanonicalUnique | internal/apiRequest.go:107 | every canonical numeral reads back as some integer whose `%v` rendering is that numeral, so a canonical numeral with a given value is unique |
| Namespaces.SplitNamespace | internal/apiRequest.go:121-125 | no pieces exactly when the namespace has no `.`; otherwise a dot-free database and collection such that the namespace is `db.coll` or starts with `db.coll.` |
| Namespaces.SplitTwoSegments | internal/apiRequest.go:121-125 | `db1.coll1` yields database `db1` and collection `coll1` |
| Namespaces.SplitDropsLaterSegments | internal/apiRequest.go:121-125 | `db.fs.files` yields collection `fs`: segments after the second `.` are dropped |
| Primary.ProcessesUrl | internal/apiRequest.go:83 | the listing URL is the groups endpoint, then the project id, which reads back from it, then `/processes/` |
| Primary.IsPrimaryType | internal/apiRequest.go:97 | the test `strings.Contains(strings.ToLower(response.TypeName), "primary")`; characterised by IsPrimaryTypeIff |
| Primary.IsPrimaryTypeIff | internal/apiRequest.go:97 | a label is primary exactly when seven consecutive runes lower-case to `primary` |
| Primary.ReplicaPrimaryIsPrimary | internal/apiRequest.go:97 | the upper-case label `REPLICA_PRIMARY` is recognised |
| Primary.FirstPrimary | internal/apiRequest.go:96-101 | the position found is a primary and no earlier entry is; no position means no entry is a primary |
| Primary.ResolvePrimary | internal/apiRequest.go:85-102 | transport and decoding errors are returned as they are; for a decoded listing, success exactly when some entry is a primary, with the id of the first one, else the "No Primary Database found" error |
| Primary.EmptyListingHasNoPrimary | internal/apiRequest.go:96-102 | an empty listing gives the "No Primary Database found" error |
| Primary.GetPrimary | internal/apiRequest.go:81-103 | requests the listing URL, returns ResolvePrimary of the reply, and writes the debug record only when a primary is found |
| SlowQueries.SlowQueryLogsUrl | internal/apiRequest.go:107 | the URL starts with the connection string and `slowQueryLogs?since=`, and the rest is a canonical numeral that reads back as the timestamp, hence by CanonicalUnique exactly its `%v` rendering |
| SlowQueries.ProjectSlowQueries | internal/apiRequest.go:120-127 | the records of the per-entry loop, up to the first panic; characterised by SlowQueryLogShape |
| SlowQueries.SlowQueriesRun | internal/apiRequest.go:105-127 | the trace of `getSlowQueries`; characterised by SlowQueriesErrorTiers and SlowQueryLogShape |
| SlowQueries.SlowQueryLogShape | internal/apiRequest.go:120-127 | record k carries entry k's line, database and collection; the loop finishes exactly when every namespace has a `.`, else panics at the first entry without one, after one record per earlier entry |
| SlowQueries.SlowQueriesErrorTiers | internal/apiRequest.go:109-118 | one request; fatal exactly on a transport error, with no records; a decoding error is logged first and the loop runs over the partial decode |
| SlowQueries.EmitSlowQueries | internal/apiRequest.go:120-127 | the per-entry loop writes exactly the records of the projection and stops at the panicking entry |
| SlowQueries.GetSlowQueries | internal/apiRequest.go:105-127 | the whole fetcher yields the trace of SlowQueriesRun |
| SuggestedIndexes.SuggestedIndexesUrl | internal/apiRequest.go:132 | the URL starts with the connection string and `suggestedIndexes?since=`, and the rest is a canonical numeral that reads back as the timestamp, hence by CanonicalUnique exactly its `%v` rendering |
| SuggestedIndexes.IndexString | internal/apiRequest.go:148-156 | the index string of a suggestion; characterised by IndexStringConcat and IndexStringShape |
| SuggestedIndexes.IndexStringConcat | internal/apiRequest.go:148-156 | the index string of a concatenation is the concatenation of the index strings |
| SuggestedIndexes.IndexStringShape | internal/apiRequest.go:148-156 | an empty index gives `""`, one element gives its encoding alone, and the first encoding is followed directly by the rest: no separator, no brackets |
| SuggestedIndexes.BuildIndexString | internal/apiRequest.go:148-156 | the accumulator loop computes the index string |
| SuggestedIndexes.ImpactMatches | internal/apiRequest.go:159-160 | the shapes whose id equals one impact, in list order; characterised by ImpactMatchesCount, ImpactMatchesMember and ImpactMatchesConcat |
| SuggestedIndexes.MatchedShapes | internal/apiRequest.go:158-160 | the matches of all impacts, impact by impact; characterised by MatchedShapesCount, MatchedShapesMember and MatchedShapesConcat |
| SuggestedIndexes.SuggestionRecords | internal/apiRequest.go:145-174 | the records of one suggestion; characterised by SuggestionRecordsShape |
| SuggestedIndexes.JoinRecords | internal/apiRequest.go:145-175 | the records of the loop over suggestions; characterised by JoinRecordsShape |
| SuggestedIndexes.SuggestedIndexesRun | internal/apiRequest.go:130-176 | the trace of `getSuggestedIndexes`; characterised by SuggestedIndexesErrorTiers and JoinRecordsShape |
| SuggestedIndexes.ImpactMatchesCount | internal/apiRequest.go:159-160 | the shapes matching one impact number as many as the shapes carrying that id |
| SuggestedIndexes.MatchedShapesCount | internal/apiRequest.go:158-174 | the matches of a suggestion number the sum, over its impacts with duplicates, of the shapes carrying each id |
| SuggestedIndexes.ImpactMatchesMember | internal/apiRequest.go:159-160 | a shape matches an impact exactly when it is in the list and has that id |
| SuggestedIndexes.MatchedShapesMember | internal/apiRequest.go:158-160 | a shape is matched exactly when it is in the list and its id is among the impacts |
| SuggestedIndexes.MatchedShapesConcat | internal/apiRequest.go:158-159 | matches come impact by impact, in impact-list order |
| SuggestedIndexes.ImpactMatchesConcat | internal/apiRequest.go:159-160 | for one impact, matches come in shape-list order |
| SuggestedIndexes.FoundRecordsAt | internal/apiRequest.go:161-171 | one record per matched shape, record k built from the k-th match |
| SuggestedIndexes.SuggestionRecordsShape | internal/apiRequest.go:145-174 | a suggestion panics, writing nothing, exactly when something matches and its namespace has no `.`; otherwise it writes that many records, each with the suggestion's id, index string, database, collection and weight and the matched shape's id, avgMs, count and inefficiencyScore |
| SuggestedIndexes.JoinRecordsShape | internal/apiRequest.go:145-175 | the loop over suggestions finishes exactly when no suggestion both has a match and lacks a `.`, having written every suggestion's records in order; otherwise it panics at the first such suggestion, after exactly the records of the suggestions before it |
| SuggestedIndexes.SuggestedIndexesErrorTiers | internal/apiRequest.go:130-145 | one request; fatal exactly on a transport error, with no records; a decoding error is logged first and the join runs over the partial decode |
| SuggestedIndexes.EmitSuggestion | internal/apiRequest.go:146-174 | the split, the index string and the loop over impacts write exactly the records of SuggestionRecords |
| SuggestedIndexes.EmitImpact | internal/apiRequest.go:159-173 | the shape loop for one impact appends one record per shape with that id, in list order, or panics at the first such shape when the namespace has no `.` |
| SuggestedIndexes.EmitSuggestions | internal/apiRequest.go:145-175 | the loop over suggestions writes their records in order and stops at the first panic |
| SuggestedIndexes.GetSuggestedIndexes | internal/apiRequest.go:130-176 | the whole fetcher yields the trace of SuggestedIndexesRun |
| Orchestration.SinceMillis | internal/apiRequest.go:68 | the since-timestamp in milliseconds, with Go's 64-bit wrap-around and truncating division; characterised by the four lemmas below |
| Orchestration.SinceMillisNoOverflow | internal/apiRequest.go:68 | when nothing wraps, the timestamp is (now - since hours in ns) / 10^6 truncated toward zero |
| Orchestration.SinceMillisExact | internal/apiRequest.go:68 | for a window ending after the epoch, the timestamp is now in whole milliseconds minus since * 3600000 |
| Orchestration.SinceOneDay | internal/apiRequest.go:68 | a 24-hour window gives now in milliseconds minus 86400000 |
| Orchestration.SinceMillisWrapsForHugeWindow | internal/apiRequest.go:68 | a 2562048-hour window wraps the Duration and gives a timestamp after the clock reading |
| Orchestration.ConnectionString | internal/apiRequest.go:75 | the connection string extends the process listing URL; the primary's id reads back from between it and the closing `/performanceAdvisor/` |
| Orchestration.GetDataRun | internal/apiRequest.go:66-79 | the trace of `GetData`; characterised by PrimaryFailureStopsRun, NoPrimaryIsFatal, FetchOrder and FatalTier |
| Orchestration.GetData | internal/apiRequest.go:66-79 | the run yields the trace of GetDataRun |
| Orchestration.PrimaryFailureStopsRun | internal/apiRequest.go:70-73 | a failed primary resolution ends the run with that error after the listing request alone, with no fetch request and no record |
| Orchestration.NoPrimaryIsFatal | internal/apiRequest.go:96-102 | a listing without a primary ends the run with "No Primary Database found" after one request |
| Orchestration.FetchOrder | internal/apiRequest.go:75-78 | after a primary is found: the listing request, then the slow-query URL, then the suggested-index URL exactly when the slow-query step did not end the process, all under the primary's connection string and one timestamp |
| Orchestration.FatalTier | internal/apiRequest.go:70-78 | a run ends fatally exactly when primary resolution fails or a reached fetch has a transport error; decoding errors never do |
| Orchestration.JoinNeverFatal | internal/apiRequest.go:145-175 | the suggestion loop never ends the process through `log.Fatal` |

## Left out

- `doRequest` (HTTP digest authentication, the 60-second timeout, headers, body reading) is not modelled: each call's answer is an input `Reply`, and its errors are opaque strings.
- `json.Unmarshal` is not modelled. A reply is already decoded; a decoding error carries whatever had been decoded, which the fetchers iterate over.
- `json.Marshal` of an index element is the parameter `encode`. Go's key ordering and number formatting are not modelled. Its error branch is left out: marshalling a `map[string]int` does not fail.
- Logging is modelled as the sequence of records written. Message texts, levels, sink configuration and level filtering (which may hide the debug record) are left out.
- `log.Fatal` writes the error and exits the process. The model records this as the trace's outcome `Fatal(err)`, not as a log record. Process exit codes are left out.
- `time.Now()` is the parameter `nowNanos`, its reading in Unix nanoseconds.
- The `Weight` float64 is carried as its bit pattern, with no arithmetic.
- The shapes' `Operations`, `Predicates` and `Stats` fields are decoded but never used, and are left out.
- GoStrings.LowerRune: it lowers only the runes whose Go lower case is ASCII. Other runes are left unchanged, so the model can differ from `strings.ToLower` there. This never changes whether a label contains `primary`.
- GoStrings.Split: it models `strings.Split` for a one-character separator only, the only kind the code uses.
- The shapes' `AvgMs`, `Count` and `InefficiencyScore` are unbounded integers. The model does no arithmetic on them.

=== FILE: atlas_types.dfy ===
/**
 * The decoded Atlas API responses, the replies of the three API calls, and what a run
 * leaves behind: the requests it issued, the structured log records it wrote, and how
 * it ended.
 */
module AtlasTypes {
  /** One entry of the project's "processes" listing. */
  datatype Process = Process(id: string, typeName: string)

  /** One entry of the "slowQueryLogs" listing. */
  datatype SlowQuery = SlowQuery(line: string, namespace: string)

  /** One query shape of the "suggestedIndexes" payload; its operation details are not used. */
  datatype Shape = Shape(avgMs: int, count: int, id: string, inefficiencyScore: int, namespace: string)

  /** A `float64`, carried through as its IEEE-754 bit pattern; no arithmetic is done on it. */
  datatype Float64 = Float64(bits: bv64)

  /** One element of a suggested index specification: a JSON object of field name to direction. */
  type IndexField = map<string, int>

  /** One suggestion of the "suggestedIndexes" payload; `impact` lists the shape ids it helps. */
  datatype SuggestedIndex = SuggestedIndex(
    id: string, impact: seq<string>, index: seq<IndexField>, namespace: string, weight: Float64)

  datatype SuggestedIndexesPayload = SuggestedIndexesPayload(shapes: seq<Shape>, suggestedIndexes: seq<SuggestedIndex>)

  /**
   * What one authenticated GET followed by JSON decoding yields: a transport error, a body
   * that decoded, or a body whose decoding failed part-way, leaving whatever had been decoded.
   */
  datatype Reply<T> = TransportFailed(err: string) | Decoded(value: T) | DecodeFailed(partial: T, err: string)

  /** The answers the API gives to the three calls of one run. */
  datatype Replies = Replies(
    processes: Reply<seq<Process>>,
    slowQueries: Reply<seq<SlowQuery>>,
    suggestedIndexes: Reply<SuggestedIndexesPayload>)

  /** The structured log records the advisor writes, with their fields. */
  datatype LogRecord =
    | PrimaryFound(id: string)                      // level Debug
    | DecodeError(err: string)                      // level Error
    | SlowQueryFound(line: string, database: string, collection: string)   // level Info
    | SuggestedIndexFound(                          // level Info
        suggestionId: string, impact: string, index: string, database: string, collection: string,
        weight: Float64, avgMs: int, count: int, inefficiencyScore: int)

  /** How a run, or one step of it, ends: normally, through `log.Fatal`, or through a runtime panic. */
  datatype Outcome = Finished | Fatal(err: string) | Panicked(reason: string)

  /** Log records written by a loop, and whether the loop finished or panicked. */
  datatype Emitted = Emitted(log: seq<LogRecord>, outcome: Outcome)

  /** Everything observable about a run: requested URLs in order, log records in order, the ending. */
  datatype Trace = Trace(requests: seq<string>, log: seq<LogRecord>, outcome: Outcome)
}

=== FILE: go_ints.dfy ===
/**
 * Go's 64-bit signed integers: `int` and `int64` on a 64-bit platform and `time.Duration`.
 * Dafny's integers are unbounded, so wrap-around and truncating division are written out.
 */
module GoInts {
  const TWO_63: int := 0x8000_0000_0000_0000
  const TWO_64: int := 0x1_0000_0000_0000_0000

  predicate InInt64(x: int) { -TWO_63 <= x < TWO_63 }

  type Int64 = x: int | InInt64(x)

  /** Two's-complement wrap-around of a mathematical result into 64 bits. */
  function Wrap64(x: int): (r: Int64)
    ensures (x - r) % TWO_64 == 0
    ensures InInt64(x) ==> r == x
  {
    (x + TWO_63) % TWO_64 - TWO_63
  }

  /** Go's integer division `a / b`, which truncates toward zero (Dafny's `/` is Euclidean). */
  function Quo(a: int, b: int): (q: int)
    requires b > 0
    ensures 0 <= a ==> q * b <= a < q * b + b && 0 <= q <= a
    ensures a < 0 ==> q * b - b < a <= q * b && a <= q <= 0
  {
    if a >= 0 then
      DivBounds(a, b);
      a / b
    else
      DivBounds(-a, b);
      -((-a) / b)
  }

  lemma DivBounds(a: nat, b: int)
    requires b > 0
    ensures (a / b) * b <= a < (a / b) * b + b
    ensures 0 <= a / b <= a
  {
    var q, r := a / b, a % b;
    assert a == b * q + r;
    assert q * b == b * q;
    assert q * b - q == q * (b - 1);
    MulNonNegative(q, b - 1);
  }

  lemma MulNonNegative(x: nat, y: nat)
    ensures x * y >= 0
  {
  }
}

=== FILE: go_strings.dfy ===
/**
 * The parts of Go's `strings`, `strconv` and `fmt` packages that the advisor relies on,
 * over Dafny strings (sequences of Unicode scalar values, as Go's `range` over a string sees them).
 */
module GoStrings {
  import opened Outcomes

  // ---------------------------------------------------------------- strings.ToLower

  /**
   * `unicode.ToLower` for every rune whose lower case is an ASCII character: the ASCII
   * capitals, LATIN CAPITAL LETTER I WITH DOT ABOVE (lowered to 'i') and KELVIN SIGN
   * (lowered to 'k'). Every other rune is left as it is; Go lowers some of them to other
   * non-ASCII runes, which no ASCII search word can match either way.
   */
  function LowerRune(c: char): (r: char)
    ensures 'a' <= r <= 'z' ==> c == r || c as int == r as int - 32 || c == '\U{0130}' || c == '\U{212A}'
    ensures 'A' <= c <= 'Z' ==> r as int == c as int + 32
    ensures c == '\U{0130}' ==> r == 'i'
    ensures c == '\U{212A}' ==> r == 'k'
    ensures c as int < 128 && !('A' <= c <= 'Z') ==> r == c
  {
    if 'A' <= c <= 'Z' then (c as int + 32) as char
    else if c == '\U{0130}' then 'i'
    else if c == '\U{212A}' then 'k'
    else c
  }

  function ToLower(s: string): (r: string)
    ensures |r| == |s|
    ensures forall i :: 0 <= i < |s| ==> r[i] == LowerRune(s[i])
  {
    if s == [] then [] else [LowerRune(s[0])] + ToLower(s[1..])
  }

  // ---------------------------------------------------------------- strings.Contains

  /** `strings.Contains(s, substr)`: does `substr` occur at the front of `s` or of a suffix of it? */
  predicate Contains(s: string, substr: string)
    decreases |s|
  {
    (|substr| <= |s| && s[..|substr|] == substr) || (s != [] && Contains(s[1..], substr))
  }

  /** `substr` occurs in `s` starting at position `i`. */
  predicate OccursAt(s: string, substr: string, i: int)
  {
    0 <= i && i + |substr| <= |s| && s[i..i + |substr|] == substr
  }

  lemma {:induction false} ContainsIffOccurs(s: string, substr: string)
    ensures Contains(s, substr) <==> exists i :: OccursAt(s, substr, i)
    decreases |s|
  {
    if |substr| <= |s| && s[..|substr|] == substr {
      assert OccursAt(s, substr, 0);
    } else if s == [] {
    } else {
      ContainsIffOccurs(s[1..], substr);
      if Contains(s[1..], substr) {
        var i :| OccursAt(s[1..], substr, i);
        assert s[1..][i..i + |substr|] == s[i + 1..i + 1 + |substr|];
        assert OccursAt(s, substr, i + 1);
      }
      if exists i :: OccursAt(s, substr, i) {
        var i :| OccursAt(s, substr, i);
        assert i != 0;
        assert s[1..][i - 1..i - 1 + |substr|] == s[i..i + |substr|];
        assert OccursAt(s[1..], substr, i - 1);
      }
    }
  }

  // ---------------------------------------------------------------- strings.Split

  /** Position of the first occurrence of `c` in `s`. */
  function IndexOf(s: string, c: char): (i: nat)
    requires c in s
    ensures i < |s| && s[i] == c && c !in s[..i]
  {
    if s[0] == c then 0
    else
      var j := IndexOf(s[1..], c);
      assert s[..j + 1] == [s[0]] + s[1..][..j];
      j + 1
  }

  /**
   * `strings.Split(s, sep)` for a one-character separator: the pieces between consecutive
   * separators, in order; a string without the separator (the empty string included)
   * gives exactly one piece.
   */
  function Split(s: string, sep: char): (parts: seq<string>)
    ensures |parts| >= 1
    ensures |parts| >= 2 <==> sep in s
    decreases |s|
  {
    if sep in s then
      var i := IndexOf(s, sep);
      [s[..i]] + Split(s[i + 1..], sep)
    else
      [s]
  }

  /** `strings.Join(parts, sep)`, the inverse of Split. */
  function Join(parts: seq<string>, sep: char): string
    requires |parts| >= 1
  {
    if |parts| == 1 then parts[0] else parts[0] + [sep] + Join(parts[1..], sep)
  }

  lemma {:induction false} SplitJoin(s: string, sep: char)
    ensures Join(Split(s, sep), sep) == s
    decreases |s|
  {
    if sep in s {
      var i := IndexOf(s, sep);
      SplitJoin(s[i + 1..], sep);
      assert s == s[..i] + [sep] + s[i + 1..];
    }
  }

  lemma {:induction false} SplitPiecesHaveNoSeparator(s: string, sep: char)
    ensures forall k :: 0 <= k < |Split(s, sep)| ==> sep !in Split(s, sep)[k]
    decreases |s|
  {
    if sep in s {
      var i := IndexOf(s, sep);
      SplitPiecesHaveNoSeparator(s[i + 1..], sep);
    }
  }

  lemma {:induction false} SplitCount(s: string, sep: char)
    ensures |Split(s, sep)| == multiset(s)[sep] + 1
    decreases |s|
  {
    if sep in s {
      var i := IndexOf(s, sep);
      SplitCount(s[i + 1..], sep);
      assert s == s[..i] + [sep] + s[i + 1..];
      assert multiset(s) == multiset(s[..i]) + multiset([sep]) + multiset(s[i + 1..]);
      assert sep !in multiset(s[..i]);
    } else {
      assert sep !in multiset(s);
    }
  }

  // ---------------------------------------------------------------- strconv / fmt "%v" of an integer

  function DigitChar(d: nat): (c: char)
    requires d < 10
    ensures '0' <= c <= '9' && c as int - '0' as int == d
  {
    ('0' as int + d) as char
  }

  predicate IsDigits(s: string)
  {
    |s| >= 1 && forall i :: 0 <= i < |s| ==> '0' <= s[i] <= '9'
  }

  /** Decimal digits of `n`, most significant first, without leading zeros. */
  function NatDecimal(n: nat): (s: string)
    ensures IsDigits(s)
    ensures |s| > 1 ==> s[0] != '0'
    ensures s[0] == '0' <==> n == 0
  {
    if n < 10 then [DigitChar(n)] else NatDecimal(n / 10) + [DigitChar(n % 10)]
  }

  /**
   * The numerals `%v` writes for an integer: digits with no leading zero, or '-' followed by
   * digits whose first is not '0' (so no "-0").
   */
  predicate Canonical(s: string)
  {
    (IsDigits(s) && (|s| > 1 ==> s[0] != '0')) ||
    (|s| >= 2 && s[0] == '-' && IsDigits(s[1..]) && s[1] != '0')
  }

  /** `fmt.Sprintf("%v", n)` for an integer: its decimal form, with '-' in front when negative. */
  function FormatInt(n: int): (r: string)
    ensures Canonical(r)
    ensures r[0] == '-' <==> n < 0
  {
    if n < 0 then
      var r := "-" + NatDecimal(-n);
      assert r[1..] == NatDecimal(-n);
      r
    else NatDecimal(n)
  }

  function ParseNat(s: string): nat
    requires IsDigits(s)
  {
    if |s| == 1 then s[0] as int - '0' as int
    else ParseNat(s[..|s| - 1]) * 10 + (s[|s| - 1] as int - '0' as int)
  }

  /** A reader of signed decimal integers, the reference against which FormatInt is checked. */
  function ParseInt(s: string): Option<int>
  {
    if IsDigits(s) then Some(ParseNat(s))
    else if |s| >= 2 && s[0] == '-' && IsDigits(s[1..]) then Some(-(ParseNat(s[1..]) as int))
    else None
  }

  lemma {:induction false} ParseNatDecimal(n: nat)
    ensures ParseNat(NatDecimal(n)) == n
  {
    if n >= 10 {
      var s := NatDecimal(n);
      assert s[..|s| - 1] == NatDecimal(n / 10);
      ParseNatDecimal(n / 10);
    }
  }

  lemma FormatIntRoundTrip(n: int)
    ensures ParseInt(FormatInt(n)) == Some(n)
  {
    var s := FormatInt(n);
    if n < 0 {
      ParseNatDecimal(-n);
      assert s[0] == '-' && !IsDigits(s);
      assert s[1..] == NatDecimal(-n);
    } else {
      ParseNatDecimal(n);
    }
  }

  /** A digit string that does not start with '0' denotes a positive number. */
  lemma {:induction false} ParseNatPositive(s: string)
    requires IsDigits(s) && s[0] != '0'
    ensures ParseNat(s) >= 1
  {
    if |s| > 1 {
      assert s[..|s| - 1][0] == s[0];
      ParseNatPositive(s[..|s| - 1]);
    }
  }

  /** A digit string without a leading zero is the decimal form of its value. */
  lemma {:induction false} NatDecimalUnique(s: string)
    requires IsDigits(s) && (|s| > 1 ==> s[0] != '0')
    ensures NatDecimal(ParseNat(s)) == s
  {
    var n := ParseNat(s);
    if |s| == 1 {
      assert NatDecimal(n) == [DigitChar(n)];
    } else {
      var p := s[..|s| - 1];
      var d := s[|s| - 1] as int - '0' as int;
      assert p[0] == s[0];
      ParseNatPositive(p);
      NatDecimalUnique(p);
      assert n / 10 == ParseNat(p) && n % 10 == d;
      assert NatDecimal(n) == p + [DigitChar(d)];
      assert s == p + [s[|s| - 1]];
    }
  }

  /** Canonical numerals are exactly the renderings: each reads back and renders to itself. */
  lemma CanonicalUnique(s: string)
    requires Canonical(s)
    ensures ParseInt(s).Some? && FormatInt(ParseInt(s).value) == s
  {
    if IsDigits(s) {
      NatDecimalUnique(s);
    } else {
      var t := s[1..];
      assert t[0] == s[1];
      ParseNatPositive(t);
      NatDecimalUnique(t);
      assert s == "-" + t;
    }
  }
}

=== FILE: namespaces.dfy ===
/** The "database.collection" namespace strings of the Atlas API, split as the advisor splits them. */
module Namespaces {
  import opened Outcomes
  import opened GoStrings

  datatype Namespace = Namespace(database: string, collection: string)

  /** The runtime error Go raises when `namespace[1]` is read from a one-piece split. */
  const IndexOutOfRange := "runtime error: index out of range [1] with length 1"

  /**
   * `strings.Split(ns, ".")` read as pieces 0 and 1: the text before the first '.' and the
   * text between the first and the second '.'; any later pieces are dropped. A namespace
   * without '.' splits into one piece, where Go's `namespace[1]` panics: None.
   */
  function SplitNamespace(ns: string): (r: Option<Namespace>)
    ensures r.None? <==> '.' !in ns
    ensures r.Some? ==> '.' !in r.value.database && '.' !in r.value.collection
    ensures r.Some? ==>
      var prefix := r.value.database + "." + r.value.collection;
      ns == prefix || prefix + "." <= ns
  {
    var parts := Split(ns, '.');
    if |parts| < 2 then None
    else
      SplitFirstTwo(ns);
      Some(Namespace(parts[0], parts[1]))
  }

  lemma SplitFirstTwo(ns: string)
    requires '.' in ns
    ensures var parts := Split(ns, '.');
      '.' !in parts[0] && '.' !in parts[1] &&
      (ns == parts[0] + "." + parts[1] || parts[0] + "." + parts[1] + "." <= ns)
  {
    var i := IndexOf(ns, '.');
    var rest := ns[i + 1..];
    var parts := Split(ns, '.');
    assert parts[0] == ns[..i] && parts[1] == Split(rest, '.')[0];
    if '.' in rest {
      var j := IndexOf(rest, '.');
      assert parts[1] == rest[..j];
      PiecesBeforeTwoDots(ns, i, j);
    } else {
      assert parts[1] == rest;
      assert ns == ns[..i] + "." + rest;
    }
  }

  lemma PiecesBeforeTwoDots(ns: string, i: nat, j: nat)
    requires i < |ns| && ns[i] == '.'
    requires j < |ns[i + 1..]| && ns[i + 1..][j] == '.'
    ensures ns[..i] + "." + ns[i + 1..][..j] + "." <= ns
  {
    assert ns[..i] + "." + ns[i + 1..][..j] + "." == ns[..i + j + 2];
  }

  /** Splitting "a.b" where `a` has no '.' yields `a` and then the pieces of `b`. */
  lemma SplitAfterPiece(a: string, b: string)
    requires '.' !in a
    ensures Split(a + "." + b, '.') == [a] + Split(b, '.')
  {
    var s := a + "." + b;
    assert s[|a|] == '.';
    assert s[..|a|] == a;
    assert IndexOf(s, '.') == |a|;
    assert s[|a| + 1..] == b;
  }

  /** "db1.coll1" gives database "db1" and collection "coll1". */
  lemma SplitTwoSegments()
    ensures SplitNamespace("db1.coll1") == Some(Namespace("db1", "coll1"))
  {
    assert "db1.coll1" == "db1" + "." + "coll1";
    SplitAfterPiece("db1", "coll1");
    assert '.' !in "coll1";
    assert Split("db1.coll1", '.') == ["db1", "coll1"];
  }

  /** "db.fs.files" gives collection "fs": segments after the second '.' are dropped. */
  lemma SplitDropsLaterSegments()
    ensures SplitNamespace("db.fs.files") == Some(Namespace("db", "fs"))
  {
    assert "db.fs.files" == "db" + "." + "fs.files";
    assert "fs.files" == "fs" + "." + "files";
    SplitAfterPiece("db", "fs.files");
    SplitAfterPiece("fs", "files");
  }
}

=== FILE: orchestration.dfy ===
/**
 * The entry point: compute the since-timestamp, resolve the primary (a failure ends the
 * run), then fetch the slow queries and the suggested indexes for it.
 */
module Orchestration {
  import opened Outcomes
  import opened GoInts
  import opened GoStrings
  import opened AtlasTypes
  import opened Primary
  import opened SlowQueries
  import opened SuggestedIndexes

  const NanosPerMilli: int := 1_000_000
  const NanosPerHour: int := 3_600_000_000_000
  const MillisPerHour: int := 3_600_000

  /**
   * `time.Now().Add(time.Duration(-since) * time.Hour).UnixNano() / 1000000`, with the
   * clock reading `nowNanos` as a parameter: negation and the Duration product wrap in 64
   * bits, UnixNano wraps the shifted instant, and the division truncates toward zero.
   */
  function SinceMillis(nowNanos: Int64, since: Int64): Int64
  {
    Quo(Wrap64(nowNanos + Wrap64(Wrap64(-(since as int)) * NanosPerHour)), NanosPerMilli)
  }

  /** Without overflow the timestamp is `(nowNanos - since hours) / 10^6`, truncated toward zero. */
  lemma SinceMillisNoOverflow(nowNanos: Int64, since: Int64)
    requires InInt64(since * NanosPerHour)
    requires InInt64(nowNanos - since * NanosPerHour)
    ensures SinceMillis(nowNanos, since) == Quo(nowNanos - since * NanosPerHour, NanosPerMilli)
  {
    assert InInt64(-(since as int));
    assert Wrap64(-(since as int)) * NanosPerHour == -(since * NanosPerHour);
  }

  /**
   * For a window that ends after the epoch, the timestamp is exactly `since` hours of
   * milliseconds before the current time in whole milliseconds.
   */
  lemma SinceMillisExact(nowNanos: Int64, since: Int64)
    requires 0 <= since && since * NanosPerHour <= nowNanos
    ensures SinceMillis(nowNanos, since) == nowNanos / NanosPerMilli - since * MillisPerHour
  {
    assert InInt64(nowNanos);
    SinceMillisNoOverflow(nowNanos, since);
    var a := nowNanos - since * NanosPerHour;
    var q, r := nowNanos / NanosPerMilli, nowNanos % NanosPerMilli;
    assert a == (q - since * MillisPerHour) * NanosPerMilli + r;
    assert a / NanosPerMilli == q - since * MillisPerHour;
  }

  /** The default one-day window: 24 * 3600 * 1000 milliseconds before now. */
  lemma SinceOneDay(nowNanos: Int64)
    requires 24 * NanosPerHour <= nowNanos
    ensures SinceMillis(nowNanos, 24) == nowNanos / NanosPerMilli - 86_400_000
  {
    SinceMillisExact(nowNanos, 24);
  }

  /**
   * A window of 2562048 hours (about 292 years) no longer fits a Duration: the product
   * wraps to a positive duration and the timestamp lands after the clock reading.
   */
  lemma SinceMillisWrapsForHugeWindow()
    ensures SinceMillis(0, 2_562_048) == 9_223_371_273_709
  {
    assert Wrap64(-2_562_048 * NanosPerHour) == 9_223_371_273_709_551_616;
  }

  const AdvisorPath := "/performanceAdvisor/"

  /**
   * The base URL of the primary's performance advisor: it extends the process listing URL,
   * and the primary's id reads back from between that URL and the advisor path.
   */
  function ConnectionString(groupID: string, primary: string): (connection: string)
    ensures ProcessesUrl(groupID) <= connection
    ensures |connection| == |ProcessesUrl(groupID)| + |primary| + |AdvisorPath|
    ensures connection[|ProcessesUrl(groupID)|..|connection| - |AdvisorPath|] == primary
    ensures connection[|connection| - |AdvisorPath|..] == AdvisorPath
  {
    var connection := ApiGroups + groupID + ProcessesPath + primary + AdvisorPath;
    assert connection == ProcessesUrl(groupID) + primary + AdvisorPath;
    assert connection[|ProcessesUrl(groupID)|..|connection| - |AdvisorPath|] == primary;
    connection
  }

  /**
   * A whole run: the processes request, then, when a primary was found, the slow-query
   * fetch, and, when that did not end the process, the suggested-index fetch.
   */
  function GetDataRun(groupID: string, nowNanos: Int64, since: Int64, replies: Replies,
                      encode: IndexField -> string): Trace
  {
    var time := SinceMillis(nowNanos, since);
    var request := ProcessesUrl(groupID);
    match ResolvePrimary(replies.processes)
    case Failure(err) => Trace([request], [], Fatal(err))
    case Success(primary) =>
      var connection := ConnectionString(groupID, primary);
      var slow := SlowQueriesRun(connection, time, replies.slowQueries);
      if slow.outcome != Finished then
        Trace([request] + slow.requests, [PrimaryFound(primary)] + slow.log, slow.outcome)
      else
        var suggested := SuggestedIndexesRun(connection, time, replies.suggestedIndexes, encode);
        Trace([request] + slow.requests + suggested.requests,
              [PrimaryFound(primary)] + slow.log + suggested.log, suggested.outcome)
  }

  /** `GetData`. */
  method GetData(groupID: string, nowNanos: Int64, since: Int64, replies: Replies,
                 encode: IndexField -> string) returns (t: Trace)
    ensures t == GetDataRun(groupID, nowNanos, since, replies, encode)
  {
    var time := SinceMillis(nowNanos, since);
    var request, primary, primaryLog := GetPrimary(groupID, replies.processes);
    if primary.Failure? {
      return Trace([request], primaryLog, Fatal(primary.error));
    }
    var connection := ConnectionString(groupID, primary.value);
    var slow := GetSlowQueries(connection, time, replies.slowQueries);
    if slow.outcome != Finished {
      return Trace([request] + slow.requests, primaryLog + slow.log, slow.outcome);
    }
    var suggested := GetSuggestedIndexes(connection, time, replies.suggestedIndexes, encode);
    return Trace([request] + slow.requests + suggested.requests,
                 primaryLog + slow.log + suggested.log, suggested.outcome);
  }

  // ---------------------------------------------------------------- properties of a run

  /**
   * When primary resolution fails the run ends with that error after the processes request
   * alone: no connection string is used, neither fetcher requests anything or logs anything.
   */
  lemma PrimaryFailureStopsRun(groupID: string, nowNanos: Int64, since: Int64, replies: Replies,
                               encode: IndexField -> string)
    requires ResolvePrimary(replies.processes).Failure?
    ensures var t := GetDataRun(groupID, nowNanos, since, replies, encode);
      t.requests == [ProcessesUrl(groupID)] && t.log == [] &&
      t.outcome == Fatal(ResolvePrimary(replies.processes).error)
  {
  }

  /** A listing without any primary ends the run with "No Primary Database found". */
  lemma NoPrimaryIsFatal(groupID: string, nowNanos: Int64, since: Int64, replies: Replies,
                         encode: IndexField -> string)
    requires replies.processes.Decoded?
    requires forall k :: 0 <= k < |replies.processes.value| ==> !IsPrimaryType(replies.processes.value[k].typeName)
    ensures GetDataRun(groupID, nowNanos, since, replies, encode).outcome == Fatal(NoPrimaryError)
    ensures |GetDataRun(groupID, nowNanos, since, replies, encode).requests| == 1
  {
  }

  /**
   * Once a primary is found, the slow-query endpoint is requested under its connection
   * string; the suggested-index endpoint is requested after it exactly when the slow-query
   * step did not end the process, and both carry the same since-timestamp.
   */
  lemma FetchOrder(groupID: string, nowNanos: Int64, since: Int64, replies: Replies,
                   encode: IndexField -> string)
    requires ResolvePrimary(replies.processes).Success?
    ensures var primary := ResolvePrimary(replies.processes).value;
      var connection := ConnectionString(groupID, primary);
      var time := SinceMillis(nowNanos, since);
      var t := GetDataRun(groupID, nowNanos, since, replies, encode);
      var slow := SlowQueriesRun(connection, time, replies.slowQueries);
      2 <= |t.requests| <= 3 &&
      t.requests[0] == ProcessesUrl(groupID) &&
      t.requests[1] == SlowQueryLogsUrl(connection, time) &&
      (|t.requests| == 3 <==> slow.outcome == Finished) &&
      (|t.requests| == 3 ==> t.requests[2] == SuggestedIndexesUrl(connection, time)) &&
      t.log[0] == PrimaryFound(primary)
  {
    var primary := ResolvePrimary(replies.processes).value;
    var connection := ConnectionString(groupID, primary);
    var time := SinceMillis(nowNanos, since);
    SlowQueriesErrorTiers(connection, time, replies.slowQueries);
  }

  /**
   * A run is ended by `log.Fatal` exactly when primary resolution fails or a fetch that is
   * reached hits a transport error; decoding errors never end it.
   */
  lemma FatalTier(groupID: string, nowNanos: Int64, since: Int64, replies: Replies,
                  encode: IndexField -> string)
    ensures var t := GetDataRun(groupID, nowNanos, since, replies, encode);
      var r := ResolvePrimary(replies.processes);
      t.outcome.Fatal? <==>
        r.Failure? ||
        replies.slowQueries.TransportFailed? ||
        (SlowQueriesRun(ConnectionString(groupID, r.value), SinceMillis(nowNanos, since),
                        replies.slowQueries).outcome == Finished &&
         replies.suggestedIndexes.TransportFailed?)
  {
    var r := ResolvePrimary(replies.processes);
    if r.Success? {
      var connection := ConnectionString(groupID, r.value);
      var time := SinceMillis(nowNanos, since);
      SlowQueriesErrorTiers(connection, time, replies.slowQueries);
      var suggested := SuggestedIndexesRun(connection, time, replies.suggestedIndexes, encode);
      if !replies.suggestedIndexes.TransportFailed? {
        assert !suggested.outcome.Fatal? by {
          var p := if replies.suggestedIndexes.Decoded? then replies.suggestedIndexes.value
                   else replies.suggestedIndexes.partial;
          JoinNeverFatal(encode, p.suggestedIndexes, p.shapes);
        }
      }
    }
  }

  lemma {:induction false} JoinNeverFatal(encode: IndexField -> string, suggestions: seq<SuggestedIndex>, shapes: seq<Shape>)
    ensures !JoinRecords(encode, suggestions, shapes).outcome.Fatal?
  {
    if suggestions != [] {
      JoinNeverFatal(encode, suggestions[1..], shapes);
    }
  }
}

=== FILE: outcomes.dfy ===
/** Option and Result, used for lookups that may fail and for Go's `(value, error)` returns. */
module Outcomes {
  datatype Option<+T> = None | Some(value: T)

  datatype Result<+T, +E> = Success(value: T) | Failure(error: E)
}

=== FILE: primary.dfy ===
/** Primary resolution: find the project's primary process in the "processes" listing. */
module Primary {
  import opened Outcomes
  import opened GoStrings
  import opened AtlasTypes

  const ApiGroups := "https://cloud.mongodb.com/api/atlas/v1.0/groups/"
  const PrimaryWord := "primary"
  const NoPrimaryError := "No Primary Database found"

  const ProcessesPath := "/processes/"

  /** The URL of the project's process listing; the project id reads back from its middle. */
  function ProcessesUrl(groupID: string): (url: string)
    ensures ApiGroups <= url
    ensures |url| == |ApiGroups| + |groupID| + |ProcessesPath|
    ensures url[|ApiGroups|..|url| - |ProcessesPath|] == groupID
    ensures url[|url| - |ProcessesPath|..] == ProcessesPath
  {
    var url := ApiGroups + groupID + ProcessesPath;
    assert url[|ApiGroups|..|url| - |ProcessesPath|] == groupID;
    url
  }

  /** A process is the primary when its lower-cased type label contains "primary". */
  predicate IsPrimaryType(typeName: string)
  {
    Contains(ToLower(typeName), PrimaryWord)
  }

  /** The seven runes of `typeName` at `i` lower-case, rune by rune, to "primary". */
  predicate PrimaryWordAt(typeName: string, i: int)
  {
    0 <= i && i + |PrimaryWord| <= |typeName| &&
    forall k :: 0 <= k < |PrimaryWord| ==> LowerRune(typeName[i + k]) == PrimaryWord[k]
  }

  /** The type test is a case-insensitive search for "primary" in the label. */
  lemma IsPrimaryTypeIff(typeName: string)
    ensures IsPrimaryType(typeName) <==> exists i :: PrimaryWordAt(typeName, i)
  {
    var lower := ToLower(typeName);
    ContainsIffOccurs(lower, PrimaryWord);
    forall i
      ensures OccursAt(lower, PrimaryWord, i) <==> PrimaryWordAt(typeName, i)
    {
      if 0 <= i && i + |PrimaryWord| <= |typeName| {
        var window := lower[i..i + |PrimaryWord|];
        assert forall k :: 0 <= k < |PrimaryWord| ==> window[k] == LowerRune(typeName[i + k]);
      }
    }
  }

  /** Atlas labels the primary of a replica set "REPLICA_PRIMARY"; upper case matches. */
  lemma ReplicaPrimaryIsPrimary()
    ensures IsPrimaryType("REPLICA_PRIMARY")
  {
    var typeName := "REPLICA_PRIMARY";
    assert typeName[8..] == "PRIMARY";
    forall k | 0 <= k < |PrimaryWord|
      ensures LowerRune(typeName[8 + k]) == PrimaryWord[k]
    {
      assert typeName[8 + k] == "PRIMARY"[k];
    }
    assert PrimaryWordAt(typeName, 8);
    IsPrimaryTypeIff(typeName);
  }

  /** The position of the first primary in `results`, if any. */
  function FirstPrimary(results: seq<Process>): (r: Option<nat>)
    ensures r.Some? ==>
      r.value < |results| && IsPrimaryType(results[r.value].typeName) &&
      forall j :: 0 <= j < r.value ==> !IsPrimaryType(results[j].typeName)
    ensures r.None? ==> forall j :: 0 <= j < |results| ==> !IsPrimaryType(results[j].typeName)
  {
    if results == [] then None
    else if IsPrimaryType(results[0].typeName) then Some(0)
    else
      match FirstPrimary(results[1..])
      case None => None
      case Some(k) => Some(k + 1)
  }

  /**
   * What `getPrimary` returns for a reply: the transport or decoding error, the id of the
   * first primary in list order, or the "no primary" error.
   */
  function ResolvePrimary(reply: Reply<seq<Process>>): (r: Result<string, string>)
    ensures reply.Decoded? ==>
      (r.Success? <==> exists k :: 0 <= k < |reply.value| && IsPrimaryType(reply.value[k].typeName))
    ensures reply.Decoded? && r.Success? ==>
      exists k :: 0 <= k < |reply.value| && r.value == reply.value[k].id &&
        IsPrimaryType(reply.value[k].typeName) &&
        forall j :: 0 <= j < k ==> !IsPrimaryType(reply.value[j].typeName)
    ensures reply.Decoded? && r.Failure? ==> r.error == NoPrimaryError
    ensures !reply.Decoded? ==> r.Failure? && r.error == reply.err
  {
    match reply
    case TransportFailed(err) => Failure(err)
    case DecodeFailed(_, err) => Failure(err)
    case Decoded(results) =>
      match FirstPrimary(results)
      case Some(k) => Success(results[k].id)
      case None => Failure(NoPrimaryError)
  }

  /** An empty listing has no primary. */
  lemma EmptyListingHasNoPrimary()
    ensures ResolvePrimary(Decoded([])) == Failure(NoPrimaryError)
  {
  }

  /** The debug record `getPrimary` writes when it finds the primary. */
  function PrimaryLog(r: Result<string, string>): seq<LogRecord>
  {
    if r.Success? then [PrimaryFound(r.value)] else []
  }

  /**
   * `getPrimary`: request the listing, give up on a transport or decoding error, then scan
   * the processes in order and return the first primary's id.
   */
  method GetPrimary(groupID: string, reply: Reply<seq<Process>>)
    returns (request: string, primary: Result<string, string>, log: seq<LogRecord>)
    ensures request == ProcessesUrl(groupID)
    ensures primary == ResolvePrimary(reply)
    ensures log == PrimaryLog(primary)
  {
    request := ProcessesUrl(groupID);
    log := [];
    var results: seq<Process>;
    match reply {
      case TransportFailed(err) =>
        return request, Failure(err), log;
      case DecodeFailed(_, err) =>
        return request, Failure(err), log;
      case Decoded(value) =>
        results := value;
    }
    for i := 0 to |results|
      invariant forall j :: 0 <= j < i ==> !IsPrimaryType(results[j].typeName)
    {
      if Contains(ToLower(results[i].typeName), PrimaryWord) {
        log := [PrimaryFound(results[i].id)];
        return request, Success(results[i].id), log;
      }
    }
    return request, Failure(NoPrimaryError), log;
  }
}

=== FILE: slow_queries.dfy ===
/** The slow-query fetcher: one structured record per slow-query log entry. */
module SlowQueries {
  import opened Outcomes
  import opened GoStrings
  import opened AtlasTypes
  import opened Namespaces

  const SlowQueryLogsPath := "slowQueryLogs?since="

  /**
   * The request URL: the connection string, the endpoint, and the since-timestamp in
   * decimal; the end of the URL is a canonical numeral that reads back as the timestamp.
   */
  function SlowQueryLogsUrl(connection: string, time: int): (url: string)
    ensures connection + SlowQueryLogsPath <= url
    ensures ParseInt(url[|connection + SlowQueryLogsPath|..]) == Some(time)
    ensures Canonical(url[|connection + SlowQueryLogsPath|..])
  {
    var url := connection + SlowQueryLogsPath + FormatInt(time);
    assert url[|connection + SlowQueryLogsPath|..] == FormatInt(time);
    FormatIntRoundTrip(time);
    url
  }

  /**
   * The records the per-entry loop writes for `entries`: each entry's line with the
   * database and collection of its namespace, up to the first entry whose namespace has
   * no '.', where reading `namespace[1]` panics.
   */
  function ProjectSlowQueries(entries: seq<SlowQuery>): Emitted
  {
    if entries == [] then Emitted([], Finished)
    else
      match SplitNamespace(entries[0].namespace)
      case None => Emitted([], Panicked(IndexOutOfRange))
      case Some(ns) =>
        var rest := ProjectSlowQueries(entries[1..]);
        Emitted([SlowQueryFound(entries[0].line, ns.database, ns.collection)] + rest.log, rest.outcome)
  }

  /** One step of ProjectSlowQueries, in the terms of the loop: the split pieces of the namespace. */
  lemma ProjectSlowQueriesStep(entries: seq<SlowQuery>)
    requires entries != []
    ensures var parts := Split(entries[0].namespace, '.');
      var rest := ProjectSlowQueries(entries[1..]);
      ProjectSlowQueries(entries) ==
        if |parts| < 2 then Emitted([], Panicked(IndexOutOfRange))
        else Emitted([SlowQueryFound(entries[0].line, parts[0], parts[1])] + rest.log, rest.outcome)
  {
  }

  /** The record written for an entry whose namespace contains '.'. */
  function SlowQueryRecord(q: SlowQuery): LogRecord
    requires '.' in q.namespace
  {
    var ns := SplitNamespace(q.namespace).value;
    SlowQueryFound(q.line, ns.database, ns.collection)
  }

  /**
   * Record k describes entry k; the loop finishes exactly when every namespace contains
   * '.', and otherwise stops, with a panic, at the first entry whose namespace does not.
   */
  lemma {:induction false} SlowQueryLogShape(entries: seq<SlowQuery>)
    ensures var e := ProjectSlowQueries(entries);
      |e.log| <= |entries| &&
      (forall k :: 0 <= k < |e.log| ==> '.' in entries[k].namespace && e.log[k] == SlowQueryRecord(entries[k])) &&
      (e.outcome == Finished <==> forall k :: 0 <= k < |entries| ==> '.' in entries[k].namespace) &&
      (e.outcome == Finished ==> |e.log| == |entries|) &&
      (e.outcome != Finished ==>
         e.outcome == Panicked(IndexOutOfRange) && |e.log| < |entries| && '.' !in entries[|e.log|].namespace)
  {
    if entries != [] && '.' in entries[0].namespace {
      SlowQueryLogShape(entries[1..]);
      var rest := ProjectSlowQueries(entries[1..]);
      assert forall k :: 1 <= k < |entries| ==> entries[k] == entries[1..][k - 1];
      if rest.outcome == Finished {
        assert forall k :: 0 <= k < |entries| ==> '.' in entries[k].namespace by {
          forall k | 1 <= k < |entries| ensures '.' in entries[k].namespace {
            assert '.' in entries[1..][k - 1].namespace;
          }
        }
      } else {
        assert '.' !in entries[1..][|rest.log|].namespace;
      }
    }
  }

  /**
   * What `getSlowQueries` does with the reply: a transport error is fatal; a decoding error
   * is logged and the loop runs over whatever was decoded.
   */
  function SlowQueriesRun(connection: string, time: int, reply: Reply<seq<SlowQuery>>): Trace
  {
    var request := SlowQueryLogsUrl(connection, time);
    match reply
    case TransportFailed(err) => Trace([request], [], Fatal(err))
    case Decoded(entries) =>
      var e := ProjectSlowQueries(entries);
      Trace([request], e.log, e.outcome)
    case DecodeFailed(partial, err) =>
      var e := ProjectSlowQueries(partial);
      Trace([request], [DecodeError(err)] + e.log, e.outcome)
  }

  /** Only a transport error is fatal; a decoding error is logged and the run goes on. */
  lemma SlowQueriesErrorTiers(connection: string, time: int, reply: Reply<seq<SlowQuery>>)
    ensures var t := SlowQueriesRun(connection, time, reply);
      t.requests == [SlowQueryLogsUrl(connection, time)] &&
      (t.outcome.Fatal? <==> reply.TransportFailed?) &&
      (reply.TransportFailed? ==> t.log == [] && t.outcome == Fatal(reply.err)) &&
      (reply.DecodeFailed? ==> t.log[0] == DecodeError(reply.err) && t.log[1..] == ProjectSlowQueries(reply.partial).log)
  {
    if !reply.TransportFailed? {
      var entries := if reply.Decoded? then reply.value else reply.partial;
      SlowQueryLogShape(entries);
    }
  }

  /** `getSlowQueries`: request, log a decoding error if any, then run the per-entry loop. */
  method GetSlowQueries(connection: string, time: int, reply: Reply<seq<SlowQuery>>) returns (t: Trace)
    ensures t == SlowQueriesRun(connection, time, reply)
  {
    var request := SlowQueryLogsUrl(connection, time);
    match reply {
      case TransportFailed(err) =>
        return Trace([request], [], Fatal(err));
      case Decoded(entries) =>
        var e := EmitSlowQueries(entries);
        return Trace([request], e.log, e.outcome);
      case DecodeFailed(partial, err) =>
        var e := EmitSlowQueries(partial);
        return Trace([request], [DecodeError(err)] + e.log, e.outcome);
    }
  }

  /** The per-entry loop of `getSlowQueries`: split the namespace and write one record. */
  method EmitSlowQueries(entries: seq<SlowQuery>) returns (e: Emitted)
    ensures e == ProjectSlowQueries(entries)
  {
    var emitted: seq<LogRecord> := [];
    var i := 0;
    while i < |entries|
      invariant 0 <= i <= |entries|
      invariant ProjectSlowQueries(entries) ==
        Emitted(emitted + ProjectSlowQueries(entries[i..]).log, ProjectSlowQueries(entries[i..]).outcome)
    {
      assert entries[i..][1..] == entries[i + 1..];
      ProjectSlowQueriesStep(entries[i..]);
      var namespace := Split(entries[i].namespace, '.');
      if |namespace| < 2 {
        return Emitted(emitted, Panicked(IndexOutOfRange));
      }
      emitted := emitted + [SlowQueryFound(entries[i].line, namespace[0], namespace[1])];
      i := i + 1;
    }
    assert entries[i..] == [];
    return Emitted(emitted, Finished);
  }
}

=== FILE: suggested_indexes.dfy ===
/**
 * The suggested-index fetcher: for each suggestion, its index string and one record per
 * (impact id, shape) pair whose ids are equal.
 */
module SuggestedIndexes {
  import opened Outcomes
  import opened GoStrings
  import opened AtlasTypes
  import opened Namespaces

  const SuggestedIndexesPath := "suggestedIndexes?since="

  /** The request URL; its end is a canonical numeral that reads back as the since-timestamp. */
  function SuggestedIndexesUrl(connection: string, time: int): (url: string)
    ensures connection + SuggestedIndexesPath <= url
    ensures ParseInt(url[|connection + SuggestedIndexesPath|..]) == Some(time)
    ensures Canonical(url[|connection + SuggestedIndexesPath|..])
  {
    var url := connection + SuggestedIndexesPath + FormatInt(time);
    assert url[|connection + SuggestedIndexesPath|..] == FormatInt(time);
    FormatIntRoundTrip(time);
    url
  }

  // ---------------------------------------------------------------- the index string

  /**
   * The JSON encodings of the index elements, concatenated in order with no separator
   * and no enclosing brackets. `encode` stands for `json.Marshal` of one element.
   */
  function IndexString(encode: IndexField -> string, index: seq<IndexField>): string
  {
    if index == [] then "" else IndexString(encode, index[..|index| - 1]) + encode(index[|index| - 1])
  }

  /** The index string of a concatenation is the concatenation of the index strings. */
  lemma {:induction false} IndexStringConcat(encode: IndexField -> string, a: seq<IndexField>, b: seq<IndexField>)
    ensures IndexString(encode, a + b) == IndexString(encode, a) + IndexString(encode, b)
    decreases |b|
  {
    if b != [] {
      var b' := b[..|b| - 1];
      assert (a + b)[..|a + b| - 1] == a + b';
      assert (a + b)[|a + b| - 1] == b[|b| - 1];
      IndexStringConcat(encode, a, b');
    } else {
      assert a + b == a;
    }
  }

  /**
   * No index elements give "", one element gives exactly its encoding, and otherwise the
   * first element's encoding is followed directly by the rest.
   */
  lemma IndexStringShape(encode: IndexField -> string, index: seq<IndexField>)
    ensures index == [] ==> IndexString(encode, index) == ""
    ensures |index| == 1 ==> IndexString(encode, index) == encode(index[0])
    ensures index != [] ==> IndexString(encode, index) == encode(index[0]) + IndexString(encode, index[1..])
  {
    if index != [] {
      assert index == [index[0]] + index[1..];
      IndexStringConcat(encode, [index[0]], index[1..]);
      assert [index[0]][..0] == [];
    }
  }

  /** The `indexes +=` loop of `getSuggestedIndexes`. */
  method BuildIndexString(encode: IndexField -> string, index: seq<IndexField>) returns (indexes: string)
    ensures indexes == IndexString(encode, index)
  {
    indexes := "";
    for i := 0 to |index|
      invariant indexes == IndexString(encode, index[..i])
    {
      assert index[..i + 1][..i] == index[..i];
      indexes := indexes + encode(index[i]);
    }
    assert index[..|index|] == index;
  }

  // ---------------------------------------------------------------- the impact x shape join

  /** The shapes whose id is `impact`, in list order, duplicates kept. */
  function ImpactMatches(impact: string, shapes: seq<Shape>): seq<Shape>
  {
    if shapes == [] then []
    else
      var last := shapes[|shapes| - 1];
      ImpactMatches(impact, shapes[..|shapes| - 1]) + (if last.id == impact then [last] else [])
  }

  /** The matched shapes of a suggestion: impact by impact, each in shape-list order. */
  function MatchedShapes(impacts: seq<string>, shapes: seq<Shape>): seq<Shape>
  {
    if impacts == [] then []
    else MatchedShapes(impacts[..|impacts| - 1], shapes) + ImpactMatches(impacts[|impacts| - 1], shapes)
  }

  /** The record for one matched shape: the suggestion's fields with the shape's metrics. */
  function FoundRecord(s: SuggestedIndex, indexes: string, ns: Namespace, shape: Shape): LogRecord
  {
    SuggestedIndexFound(s.id, shape.id, indexes, ns.database, ns.collection, s.weight,
                        shape.avgMs, shape.count, shape.inefficiencyScore)
  }

  function FoundRecords(s: SuggestedIndex, indexes: string, ns: Namespace, matched: seq<Shape>): seq<LogRecord>
  {
    if matched == [] then []
    else FoundRecords(s, indexes, ns, matched[..|matched| - 1]) + [FoundRecord(s, indexes, ns, matched[|matched| - 1])]
  }

  /**
   * The records written for one suggestion. Its namespace is split before the loops, but
   * `namespace[1]` is read only when a record is written: a namespace without '.' panics
   * at the first match, and not at all when nothing matches.
   */
  function SuggestionRecords(encode: IndexField -> string, s: SuggestedIndex, shapes: seq<Shape>): Emitted
  {
    var matched := MatchedShapes(s.impact, shapes);
    if matched == [] then Emitted([], Finished)
    else
      match SplitNamespace(s.namespace)
      case None => Emitted([], Panicked(IndexOutOfRange))
      case Some(ns) => Emitted(FoundRecords(s, IndexString(encode, s.index), ns, matched), Finished)
  }

  /** The records of all suggestions in order, up to the first suggestion that panics. */
  function JoinRecords(encode: IndexField -> string, suggestions: seq<SuggestedIndex>, shapes: seq<Shape>): Emitted
  {
    if suggestions == [] then Emitted([], Finished)
    else
      var first := SuggestionRecords(encode, suggestions[0], shapes);
      if first.outcome != Finished then first
      else
        var rest := JoinRecords(encode, suggestions[1..], shapes);
        Emitted(first.log + rest.log, rest.outcome)
  }

  /**
   * What `getSuggestedIndexes` does with the reply: a transport error is fatal; a decoding
   * error is logged and the loops run over whatever was decoded.
   */
  function SuggestedIndexesRun(connection: string, time: int, reply: Reply<SuggestedIndexesPayload>,
                               encode: IndexField -> string): Trace
  {
    var request := SuggestedIndexesUrl(connection, time);
    match reply
    case TransportFailed(err) => Trace([request], [], Fatal(err))
    case Decoded(p) =>
      var e := JoinRecords(encode, p.suggestedIndexes, p.shapes);
      Trace([request], e.log, e.outcome)
    case DecodeFailed(p, err) =>
      var e := JoinRecords(encode, p.suggestedIndexes, p.shapes);
      Trace([request], [DecodeError(err)] + e.log, e.outcome)
  }

  // ---------------------------------------------------------------- properties of the join

  /** The shapes' ids, in list order. */
  function ShapeIds(shapes: seq<Shape>): (ids: seq<string>)
    ensures |ids| == |shapes| && forall k :: 0 <= k < |shapes| ==> ids[k] == shapes[k].id
  {
    if shapes == [] then [] else ShapeIds(shapes[..|shapes| - 1]) + [shapes[|shapes| - 1].id]
  }

  /** For each impact, the number of shapes carrying that id, summed over the impact list. */
  function ExpectedMatches(impacts: seq<string>, shapes: seq<Shape>): nat
  {
    if impacts == [] then 0
    else ExpectedMatches(impacts[..|impacts| - 1], shapes) + multiset(ShapeIds(shapes))[impacts[|impacts| - 1]]
  }

  lemma {:induction false} ImpactMatchesCount(impact: string, shapes: seq<Shape>)
    ensures |ImpactMatches(impact, shapes)| == multiset(ShapeIds(shapes))[impact]
  {
    if shapes != [] {
      var init := shapes[..|shapes| - 1];
      ImpactMatchesCount(impact, init);
      assert ShapeIds(shapes) == ShapeIds(init) + [shapes[|shapes| - 1].id];
    }
  }

  /** One record per (impact, shape) pair with equal ids: duplicates on either side count. */
  lemma {:induction false} MatchedShapesCount(impacts: seq<string>, shapes: seq<Shape>)
    ensures |MatchedShapes(impacts, shapes)| == ExpectedMatches(impacts, shapes)
  {
    if impacts != [] {
      MatchedShapesCount(impacts[..|impacts| - 1], shapes);
      ImpactMatchesCount(impacts[|impacts| - 1], shapes);
    }
  }

  lemma {:induction false} ImpactMatchesMember(impact: string, shapes: seq<Shape>, shape: Shape)
    ensures shape in ImpactMatches(impact, shapes) <==> shape in shapes && shape.id == impact
  {
    if shapes != [] {
      var init := shapes[..|shapes| - 1];
      ImpactMatchesMember(impact, init, shape);
      assert shapes == init + [shapes[|shapes| - 1]];
    }
  }

  /** A shape is matched exactly when it is in the shape list and its id is in the impact list. */
  lemma {:induction false} MatchedShapesMember(impacts: seq<string>, shapes: seq<Shape>, shape: Shape)
    ensures shape in MatchedShapes(impacts, shapes) <==> shape in shapes && shape.id in impacts
  {
    if impacts != [] {
      var init := impacts[..|impacts| - 1];
      MatchedShapesMember(init, shapes, shape);
      ImpactMatchesMember(impacts[|impacts| - 1], shapes, shape);
      assert impacts == init + [impacts[|impacts| - 1]];
    }
  }

  /** Records come impact by impact: the matches of a longer impact list extend those of a prefix. */
  lemma {:induction false} MatchedShapesConcat(a: seq<string>, b: seq<string>, shapes: seq<Shape>)
    ensures MatchedShapes(a + b, shapes) == MatchedShapes(a, shapes) + MatchedShapes(b, shapes)
    decreases |b|
  {
    if b != [] {
      var b' := b[..|b| - 1];
      assert (a + b)[..|a + b| - 1] == a + b';
      assert (a + b)[|a + b| - 1] == b[|b| - 1];
      MatchedShapesConcat(a, b', shapes);
    } else {
      assert a + b == a;
    }
  }

  /** Within one impact, matches come in shape-list order. */
  lemma {:induction false} ImpactMatchesConcat(impact: string, a: seq<Shape>, b: seq<Shape>)
    ensures ImpactMatches(impact, a + b) == ImpactMatches(impact, a) + ImpactMatches(impact, b)
    decreases |b|
  {
    if b != [] {
      var b' := b[..|b| - 1];
      assert (a + b)[..|a + b| - 1] == a + b';
      assert (a + b)[|a + b| - 1] == b[|b| - 1];
      ImpactMatchesConcat(impact, a, b');
    } else {
      assert a + b == a;
    }
  }

  lemma {:induction false} FoundRecordsAt(s: SuggestedIndex, indexes: string, ns: Namespace, matched: seq<Shape>)
    ensures |FoundRecords(s, indexes, ns, matched)| == |matched|
    ensures forall k :: 0 <= k < |matched| ==>
      FoundRecords(s, indexes, ns, matched)[k] == FoundRecord(s, indexes, ns, matched[k])
  {
    if matched != [] {
      FoundRecordsAt(s, indexes, ns, matched[..|matched| - 1]);
    }
  }

  /**
   * A suggestion finishes with exactly ExpectedMatches records, record k carrying the
   * suggestion's id, index string, namespace parts and weight with the k-th matched shape's
   * id and metrics; it panics, writing nothing, exactly when something matches and its
   * namespace has no '.'.
   */
  lemma SuggestionRecordsShape(encode: IndexField -> string, s: SuggestedIndex, shapes: seq<Shape>)
    ensures var e := SuggestionRecords(encode, s, shapes);
      var matched := MatchedShapes(s.impact, shapes);
      (e.outcome != Finished <==> ExpectedMatches(s.impact, shapes) > 0 && '.' !in s.namespace) &&
      (e.outcome != Finished ==> e.outcome == Panicked(IndexOutOfRange) && e.log == []) &&
      (e.outcome == Finished ==> |e.log| == |matched| == ExpectedMatches(s.impact, shapes)) &&
      (e.outcome == Finished ==> forall k :: 0 <= k < |e.log| ==>
         e.log[k] == FoundRecord(s, IndexString(encode, s.index), SplitNamespace(s.namespace).value, matched[k]))
  {
    var matched := MatchedShapes(s.impact, shapes);
    MatchedShapesCount(s.impact, shapes);
    if matched != [] && '.' in s.namespace {
      FoundRecordsAt(s, IndexString(encode, s.index), SplitNamespace(s.namespace).value, matched);
    }
  }

  /** A suggestion panics when some impact matches a shape and its namespace has no '.'. */
  predicate SuggestionPanics(s: SuggestedIndex, shapes: seq<Shape>)
  {
    ExpectedMatches(s.impact, shapes) > 0 && '.' !in s.namespace
  }

  /** A suggestion's own loop stops, with nothing written, exactly when it panics. */
  lemma SuggestionPanicsIff(encode: IndexField -> string, s: SuggestedIndex, shapes: seq<Shape>)
    ensures var e := SuggestionRecords(encode, s, shapes);
      (e.outcome != Finished <==> SuggestionPanics(s, shapes)) &&
      (e.outcome != Finished ==> e.outcome == Panicked(IndexOutOfRange) && e.log == [])
  {
    SuggestionRecordsShape(encode, s, shapes);
  }

  /** Suggestion `p` is the first one that panics. */
  predicate FirstPanic(suggestions: seq<SuggestedIndex>, shapes: seq<Shape>, p: int)
  {
    0 <= p < |suggestions| && SuggestionPanics(suggestions[p], shapes) &&
    forall k :: 0 <= k < p ==> !SuggestionPanics(suggestions[k], shapes)
  }

  /** The records of the suggestions, each suggestion's in turn, when none of them panics. */
  function FinishedLogs(encode: IndexField -> string, suggestions: seq<SuggestedIndex>, shapes: seq<Shape>): seq<LogRecord>
  {
    if suggestions == [] then []
    else SuggestionRecords(encode, suggestions[0], shapes).log + FinishedLogs(encode, suggestions[1..], shapes)
  }

  /** The loop over suggestions finishes exactly when no suggestion panics, having written every suggestion's records. */
  lemma {:induction false} JoinRecordsFinishes(encode: IndexField -> string, suggestions: seq<SuggestedIndex>, shapes: seq<Shape>)
    ensures var e := JoinRecords(encode, suggestions, shapes);
      (e.outcome == Finished <==> forall k :: 0 <= k < |suggestions| ==> !SuggestionPanics(suggestions[k], shapes)) &&
      (e.outcome == Finished ==> e.log == FinishedLogs(encode, suggestions, shapes))
  {
    if suggestions != [] {
      var tail := suggestions[1..];
      SuggestionPanicsIff(encode, suggestions[0], shapes);
      if !SuggestionPanics(suggestions[0], shapes) {
        JoinRecordsFinishes(encode, tail, shapes);
        if forall k :: 0 <= k < |tail| ==> !SuggestionPanics(tail[k], shapes) {
          forall k | 1 <= k < |suggestions| ensures !SuggestionPanics(suggestions[k], shapes) {
            assert suggestions[k] == tail[k - 1];
          }
        } else {
          var k :| 0 <= k < |tail| && SuggestionPanics(tail[k], shapes);
          assert suggestions[k + 1] == tail[k];
        }
      }
    }
  }

  /** Otherwise it panics at the first suggestion that panics, after the records of the suggestions before it. */
  lemma {:induction false} JoinRecordsPanics(encode: IndexField -> string, suggestions: seq<SuggestedIndex>, shapes: seq<Shape>)
    ensures var e := JoinRecords(encode, suggestions, shapes);
      e.outcome != Finished ==>
        e.outcome == Panicked(IndexOutOfRange) &&
        exists p :: FirstPanic(suggestions, shapes, p) && e.log == FinishedLogs(encode, suggestions[..p], shapes)
  {
    if suggestions != [] {
      var tail := suggestions[1..];
      SuggestionPanicsIff(encode, suggestions[0], shapes);
      if SuggestionPanics(suggestions[0], shapes) {
        assert FirstPanic(suggestions, shapes, 0);
        assert suggestions[..0] == [];
      } else if JoinRecords(encode, tail, shapes).outcome != Finished {
        JoinRecordsPanics(encode, tail, shapes);
        var p :| FirstPanic(tail, shapes, p) && JoinRecords(encode, tail, shapes).log == FinishedLogs(encode, tail[..p], shapes);
        JoinPanicStep(encode, suggestions, shapes, p);
      }
    }
  }

  /** A suggestion that does not panic moves the first panic of the rest one place on. */
  lemma JoinPanicStep(encode: IndexField -> string, suggestions: seq<SuggestedIndex>, shapes: seq<Shape>, p: int)
    requires suggestions != [] && !SuggestionPanics(suggestions[0], shapes)
    requires SuggestionRecords(encode, suggestions[0], shapes).outcome == Finished
    requires FirstPanic(suggestions[1..], shapes, p)
    requires JoinRecords(encode, suggestions[1..], shapes).log == FinishedLogs(encode, suggestions[1..][..p], shapes)
    ensures FirstPanic(suggestions, shapes, p + 1)
    ensures JoinRecords(encode, suggestions, shapes).log == FinishedLogs(encode, suggestions[..p + 1], shapes)
  {
    var tail := suggestions[1..];
    forall k | 1 <= k < p + 1 ensures !SuggestionPanics(suggestions[k], shapes) {
      assert suggestions[k] == tail[k - 1];
    }
    var prefix := suggestions[..p + 1];
    assert prefix[0] == suggestions[0] && prefix[1..] == tail[..p];
    assert FinishedLogs(encode, prefix, shapes)
        == SuggestionRecords(encode, suggestions[0], shapes).log + FinishedLogs(encode, tail[..p], shapes);
  }

  /**
   * The loop over suggestions finishes exactly when no suggestion panics, having written
   * every suggestion's records in order; otherwise it panics at the first suggestion that
   * panics, having written the records of the suggestions before it and nothing more.
   */
  lemma JoinRecordsShape(encode: IndexField -> string, suggestions: seq<SuggestedIndex>, shapes: seq<Shape>)
    ensures var e := JoinRecords(encode, suggestions, shapes);
      (e.outcome == Finished <==> forall k :: 0 <= k < |suggestions| ==> !SuggestionPanics(suggestions[k], shapes)) &&
      (e.outcome == Finished ==> e.log == FinishedLogs(encode, suggestions, shapes)) &&
      (e.outcome != Finished ==>
         e.outcome == Panicked(IndexOutOfRange) &&
         exists p :: FirstPanic(suggestions, shapes, p) && e.log == FinishedLogs(encode, suggestions[..p], shapes))
  {
    JoinRecordsFinishes(encode, suggestions, shapes);
    JoinRecordsPanics(encode, suggestions, shapes);
  }

  /**
   * `getSuggestedIndexes` makes one request; only a transport error is fatal, and then nothing
   * is written. A decoding error is logged first, and the join then runs over the partial decode.
   */
  lemma SuggestedIndexesErrorTiers(connection: string, time: int, reply: Reply<SuggestedIndexesPayload>,
                                   encode: IndexField -> string)
    ensures var t := SuggestedIndexesRun(connection, time, reply, encode);
      t.requests == [SuggestedIndexesUrl(connection, time)] &&
      (t.outcome.Fatal? <==> reply.TransportFailed?) &&
      (reply.TransportFailed? ==> t.log == [] && t.outcome == Fatal(reply.err)) &&
      (reply.DecodeFailed? ==>
         t.log[0] == DecodeError(reply.err) &&
         t.log[1..] == JoinRecords(encode, reply.partial.suggestedIndexes, reply.partial.shapes).log)
  {
    if !reply.TransportFailed? {
      var p := if reply.Decoded? then reply.value else reply.partial;
      JoinRecordsShape(encode, p.suggestedIndexes, p.shapes);
    }
  }

  // ---------------------------------------------------------------- the fetcher

  /** `getSuggestedIndexes`: request, log a decoding error if any, then one pass per suggestion. */
  method GetSuggestedIndexes(connection: string, time: int, reply: Reply<SuggestedIndexesPayload>,
                             encode: IndexField -> string) returns (t: Trace)
    ensures t == SuggestedIndexesRun(connection, time, reply, encode)
  {
    var request := SuggestedIndexesUrl(connection, time);
    match reply {
      case TransportFailed(err) =>
        return Trace([request], [], Fatal(err));
      case Decoded(p) =>
        var e := EmitSuggestions(encode, p.suggestedIndexes, p.shapes);
        return Trace([request], e.log, e.outcome);
      case DecodeFailed(p, err) =>
        var e := EmitSuggestions(encode, p.suggestedIndexes, p.shapes);
        return Trace([request], [DecodeError(err)] + e.log, e.outcome);
    }
  }

  /** The loop over the suggestions of `getSuggestedIndexes`. */
  method EmitSuggestions(encode: IndexField -> string, suggestions: seq<SuggestedIndex>, shapes: seq<Shape>)
    returns (e: Emitted)
    ensures e == JoinRecords(encode, suggestions, shapes)
  {
    var emitted: seq<LogRecord> := [];
    var i := 0;
    while i < |suggestions|
      invariant 0 <= i <= |suggestions|
      invariant JoinRecords(encode, suggestions, shapes) ==
        Emitted(emitted + JoinRecords(encode, suggestions[i..], shapes).log,
                JoinRecords(encode, suggestions[i..], shapes).outcome)
    {
      assert suggestions[i..][1..] == suggestions[i + 1..];
      var one := EmitSuggestion(encode, suggestions[i], shapes);
      if one.outcome != Finished {
        return Emitted(emitted + one.log, one.outcome);
      }
      emitted := emitted + one.log;
      i := i + 1;
    }
    assert suggestions[i..] == [];
    return Emitted(emitted, Finished);
  }

  lemma FoundRecordsAppend(s: SuggestedIndex, indexes: string, ns: Namespace, m: seq<Shape>, shape: Shape)
    ensures FoundRecords(s, indexes, ns, m + [shape]) == FoundRecords(s, indexes, ns, m) + [FoundRecord(s, indexes, ns, shape)]
  {
    assert (m + [shape])[..|m|] == m;
  }

  /** Holds when `log` is what the join has written for the shapes `matched` so far. */
  predicate WrittenFor(s: SuggestedIndex, indexes: string, namespace: seq<string>,
                       matched: seq<Shape>, log: seq<LogRecord>)
    requires |namespace| >= 1
  {
    if |namespace| < 2 then matched == [] && log == []
    else log == FoundRecords(s, indexes, Namespace(namespace[0], namespace[1]), matched)
  }

  /** The body of the suggestion loop: split the namespace, build the index string, join. */
  method EmitSuggestion(encode: IndexField -> string, s: SuggestedIndex, shapes: seq<Shape>)
    returns (e: Emitted)
    ensures e == SuggestionRecords(encode, s, shapes)
  {
    var namespace := Split(s.namespace, '.');
    var indexes := BuildIndexString(encode, s.index);
    var log: seq<LogRecord> := [];
    for i := 0 to |s.impact|
      invariant WrittenFor(s, indexes, namespace, MatchedShapes(s.impact[..i], shapes), log)
    {
      assert s.impact[..i + 1][..i] == s.impact[..i];
      var panicked;
      log, panicked := EmitImpact(s, indexes, namespace, s.impact[i], shapes, MatchedShapes(s.impact[..i], shapes), log);
      if panicked {
        ghost var shape := ImpactMatches(s.impact[i], shapes)[0];
        ImpactMatchesMember(s.impact[i], shapes, shape);
        MatchedShapesMember(s.impact, shapes, shape);
        return Emitted(log, Panicked(IndexOutOfRange));
      }
    }
    assert s.impact[..|s.impact|] == s.impact;
    return Emitted(log, Finished);
  }

  /**
   * The inner loop for one impact id: scan the shapes in order and write a record for each
   * shape with that id; reading `namespace[1]` panics when the namespace had no '.'.
   */
  method EmitImpact(s: SuggestedIndex, indexes: string, namespace: seq<string>, impact: string,
                    shapes: seq<Shape>, ghost before: seq<Shape>, log: seq<LogRecord>)
    returns (log': seq<LogRecord>, panicked: bool)
    requires |namespace| >= 1
    requires WrittenFor(s, indexes, namespace, before, log)
    ensures panicked ==> |namespace| < 2 && ImpactMatches(impact, shapes) != [] && log' == log
    ensures !panicked ==> WrittenFor(s, indexes, namespace, before + ImpactMatches(impact, shapes), log')
  {
    log' := log;
    assert before + ImpactMatches(impact, shapes[..0]) == before;
    for j := 0 to |shapes|
      invariant WrittenFor(s, indexes, namespace, before + ImpactMatches(impact, shapes[..j]), log')
    {
      assert shapes[..j + 1][..j] == shapes[..j];
      var shape := shapes[j];
      ghost var matched := before + ImpactMatches(impact, shapes[..j]);
      if impact == shape.id {
        if |namespace| < 2 {
          ImpactMatchesMember(impact, shapes, shape);
          return log', true;
        }
        log' := log' + [SuggestedIndexFound(s.id, impact, indexes, namespace[0], namespace[1], s.weight,
                                            shape.avgMs, shape.count, shape.inefficiencyScore)];
        FoundRecordsAppend(s, indexes, Namespace(namespace[0], namespace[1]), matched, shape);
        assert before + ImpactMatches(impact, shapes[..j + 1]) == matched + [shape];
      } else {
        assert before + ImpactMatches(impact, shapes[..j + 1]) == matched;
      }
    }
    assert shapes[..|shapes|] == shapes;
    return log', false;
  }
}
